=== FILE: README.md ===
# Toy robot: bytecode compiler and interpreter

A Dafny model of the compile-and-run path of the toy robot language
(danwhitford/toyrobot). A token list is encoded into a tagged bytecode
stream, and a stack machine decodes that stream. It pushes literals onto
the robot's value stack and runs named words from the robot's dictionary.

- `types.dfy` (module `Types`) holds the shared vocabulary:
  - bytes;
  - the `RobotType` tags (`T_INT = 0`, `T_DIRECTION = 1`, `T_BOOL = 2`);
  - the `Instruction` opcodes (`OP_PUSH_VAL = 0`, `OP_EXEC_WORD = 1`);
  - the `Direction` values (`NORTH = 0` … `WEST = 3`);
  - tokens, tagged runtime values, and the error kinds.
- `belt.dfy` (module `Belt`) holds the forward-only cursor `belt.Belt[T]`. It is a class with an item sequence and a position.
- `compiler.dfy` (module `Compiler`) holds `RobotCompiler.Compile`. It is an imperative method over a token cursor, proved equal to the specification function `CompileTokens`. The lemmas about `CompileTokens` state:
  - the byte layout of each token;
  - the error cases;
  - that failure is all-or-nothing;
  - that compilation is a homomorphism;
  - the encoded length.
- `toyrobot.dfy` (module `ToyRobot`) holds the `Robot` class:
  - `runInstructions` is split into the decode of one instruction (`ExecuteInstruction`) and the inner name-reading loop (`ReadWord`). Both are proved against the specification functions `Step`, `ReadName` and `Exec`.
  - `RunProgram` composes compilation and execution.
  - One lemma per instruction form states what decoding does with it.
- `roundtrip.dfy` (module `RoundTrip`) connects the two halves.
  - `Interpret` is a token-level meaning of a program that involves no bytecode. Compiling and then running gives exactly `Interpret`'s error and stack, for every accepted token list whose word names contain no `0` byte.
  - Programs made only of byte literals therefore leave exactly their values on the stack, in source order.
  - A concrete lemma shows that the restriction on `0` bytes is needed.
  - The `3 2 NORTH PLACE` fixture is checked byte for byte.

Behaviour of the code that the model follows:
- The compiler gives `IF`, `ELSE` and `THEN` no special treatment: they compile like any other word. It has no `STRING` or `BOOL` bytecode, and `STRING` and `BOOL` tokens are rejected as invalid instructions.
- A `NUMBER` or `DIRECTION` token whose value has the wrong dynamic type makes Go's unchecked type assertion panic rather than return an error. The model returns the error value `TypeAssertionPanic`.

## Model

| member | source | states |
|---|---|---|
| Compiler.EncodeToken | toyrobot/compiler.go:38-69 | The instruction one token compiles to, or the error that stops compilation: the switch on the token kind. Its layouts and errors are proved in `TokenLayout`; `CompileLength` gives its size |
| Compiler.TruncateToByte | toyrobot/compiler.go:44 | `byte(n)` keeps n modulo 256: the result is a byte that differs from n by a multiple of 256 |
| Compiler.TokenLayout | toyrobot/compiler.go:38-69 | Each kind's bytes, and that n and n + 256 compile alike. NUMBER n gives `[0,0,n mod 256]`, DIRECTION d gives `[0,1,d]` and WORD s gives `[1]+s+[0]`. A non-string WORD fails with InvalidTokenValue; BOOL and STRING fail with InvalidTokenInstruction |
| Compiler.CompileTokens | toyrobot/compiler.go:29-73 | What `Compile` returns, defined the way the loop consumes the tokens: the prefix's bytes, then the next token's encoding, with the first error ending compilation. `RobotCompiler.Compile` is proved equal to it, and the lemmas below state its properties |
| Compiler.CompileSingle | toyrobot/compiler.go:38-69 | A one-token list compiles to that token's encoding or its error |
| Compiler.CompileSucceedsIff | toyrobot/compiler.go:33-72 | Compilation succeeds if and only if every token is accepted |
| Compiler.CompilePrefixFailure | toyrobot/compiler.go:36-68 | Once a prefix fails, the whole list fails with that same error |
| Compiler.CompileAppend | toyrobot/compiler.go:32-72 | Compiling `a + b` gives Compile(a) followed by Compile(b); the first error, from `a` before `b`, wins |
| Compiler.CompileCons | toyrobot/compiler.go:32-72 | Compiling a list is the first token's encoding followed by the rest's |
| Compiler.CompileLength | toyrobot/compiler.go:39-66 | A successful output has 3 bytes per literal and \|name\| + 2 bytes per word |
| Compiler.CompileIsEncoding | toyrobot/compiler.go:32-72 | A list of accepted tokens compiles to the in-order concatenation of their encodings |
| Compiler.CompileFailsAtFirstBadToken | toyrobot/compiler.go:33-69 | A failure carries the error of the first rejected token, and every token before it was accepted |
| Compiler.CompileAllOrNothing | toyrobot/compiler.go:33-69 | One rejected token anywhere fails the whole compilation, with no partial output |
| Compiler.CompileEmpty | toyrobot/compiler.go:32-72 | The empty token list compiles to the empty stream without error |
| Compiler.RobotCompiler.Compile | toyrobot/compiler.go:29-73 | Returns exactly `CompileTokens(input)`, and leaves `tokens` as a fresh cursor over the input. On success the cursor is at the end; on failure it is just past the first rejected token, whose error is returned and before which everything compiled |
| Belt.Cursor.constructor | toyrobot/toyrobot.go:118 | A new cursor is at position 0 of its items |
| Belt.Cursor.HasNext | toyrobot/toyrobot.go:52 | True while items remain at the cursor; the loops of `Compile` and `RunInstructions` test it, and `GetNext`'s contract gives the item it guards |
| Belt.Cursor.GetNext | toyrobot/toyrobot.go:52-62 | Returns the current item and advances, or fails with the exhaustion error and stays put |
| ToyRobot.ReadName | toyrobot/toyrobot.go:80-92 | A name found at `i` ends after `i` and inside the stream |
| ToyRobot.ReadNameFinds | toyrobot/toyrobot.go:80-92 | Fails exactly when no `0` follows. Otherwise it stops at a `0` and returns the `0`-free bytes before it |
| ToyRobot.ReadNameAt | toyrobot/toyrobot.go:81-93 | The name is exactly the bytes up to the first `0`, and reading resumes just past it |
| ToyRobot.Step | toyrobot/toyrobot.go:53-104 | Every instruction consumes at least one byte and stays within the stream |
| ToyRobot.Exec | toyrobot/toyrobot.go:51-107 | The run of the decode loop from a position: decode one instruction with `Step`, then halt or carry on, ending without error at the end of the stream. `RunInstructions` is proved equal to it; `ExecStopsInStream`, `ExecOnlyPushesBytes` and the per-instruction lemmas below state its properties |
| ToyRobot.ExecStopsInStream | toyrobot/toyrobot.go:52-106 | A run stops inside the stream, and it ends without error only at the end of the stream |
| ToyRobot.ExecOnlyPushesBytes | toyrobot/toyrobot.go:58-79 | A run keeps the old stack as a prefix, and every pushed value is an integer in 0..255 or a direction |
| ToyRobot.ExecPushInt | toyrobot/toyrobot.go:65-71 | `[0,0,b]` pushes the integer b and decoding resumes three bytes on |
| ToyRobot.ExecPushDirection | toyrobot/toyrobot.go:72-78 | `[0,1,b]` pushes the direction b and decoding resumes three bytes on |
| ToyRobot.ExecSkipsOtherTag | toyrobot/toyrobot.go:63-79 | A PUSH_VAL whose tag is neither T_INT nor T_DIRECTION pushes nothing and consumes only the tag |
| ToyRobot.ExecTruncatedPush | toyrobot/toyrobot.go:59-76 | A stream that ends after PUSH_VAL, or after its INT or DIRECTION tag, fails with the exhaustion error and leaves the stack unchanged |
| ToyRobot.ExecUnterminatedWord | toyrobot/toyrobot.go:80-92 | An EXEC_WORD with no `0` after it fails with the exhaustion error |
| ToyRobot.ExecWord | toyrobot/toyrobot.go:80-101 | An unknown name stops the run with UnknownWord, and a failing action stops it with the action's own error. A succeeding action resumes decoding past the terminator |
| ToyRobot.ExecInvalidOpcode | toyrobot/toyrobot.go:102-103 | Any opcode other than 0 and 1 stops the run with InvalidInstruction |
| ToyRobot.ExecAtEnd | toyrobot/toyrobot.go:52-106 | An exhausted cursor ends the run without error and with the stack untouched |
| ToyRobot.RunProgramSpec | toyrobot/toyrobot.go:109-120 | The tokenise error, else the compile error, else the run of the compiled bytes from position 0: the error and stack `RunProgram` leaves. `CompiledRunMatchesTokens`, `LiteralRoundTrip` and `PlaceFixtureRuns` state what it gives |
| ToyRobot.Robot.constructor | toyrobot/toyrobot.go:35-49 | A robot starts with an empty value stack, the given dictionary and no instruction cursor |
| ToyRobot.Robot.ReadWord | toyrobot/toyrobot.go:81-92 | The inner loop returns `ReadName`'s name and leaves the cursor just past the terminator, or fails with the exhaustion error at the end |
| ToyRobot.Robot.ExecuteInstruction | toyrobot/toyrobot.go:53-104 | One iteration of the decode loop leaves the stack and cursor that `Step` gives, and returns `Step`'s error |
| ToyRobot.Robot.RunInstructions | toyrobot/toyrobot.go:51-107 | The loop ends with the error, stack and cursor position that `Exec` gives |
| ToyRobot.Robot.RunProgram | toyrobot/toyrobot.go:109-120 | Gives `RunProgramSpec`'s error and stack. A tokenise or compile failure returns that error and runs nothing. Otherwise it installs a fresh cursor over the compiled bytes, which ends where the run stopped. After tokenising succeeds, the compiler's token cursor is a fresh cursor over the tokens |
| RoundTrip.ExecToken | toyrobot/toyrobot.go:57-104 | Decoding the encoding of one accepted token, whose word name holds no `0` byte, has exactly that token's effect, then resumes after the encoding |
| RoundTrip.ExecCompiled | toyrobot/toyrobot.go:51-107 | Decoding a compiled list of accepted tokens whose word names hold no `0` byte, at any position and from any stack, gives `Interpret`'s error and stack |
| RoundTrip.CompiledRunMatchesTokens | toyrobot/toyrobot.go:109-120 | Compile-then-run equals `Interpret` for every accepted list whose word names hold no `0` |
| RoundTrip.InterpretLiterals | toyrobot/compiler.go:39-52 | A list of NUMBERs in 0..255 and DIRECTIONs compiles and appends its values to the stack in order |
| RoundTrip.LiteralRoundTrip | toyrobot/toyrobot.go:109-120 | Running the compiled literals from an empty stack succeeds and leaves exactly those values, in source order |
| RoundTrip.TerminatorInWordNameCompiles | toyrobot/compiler.go:53-66 | The WORD "A\0B" compiles to `[1,'A',0,'B',0]` |
| RoundTrip.ExecTerminatorLayout | toyrobot/toyrobot.go:80-103 | Those bytes decode as the word "A" followed by the invalid opcode 'B' |
| RoundTrip.TerminatorInWordName | toyrobot/toyrobot.go:86-103 | For that token the run fails with InvalidInstruction('B'), while the token-level meaning fails with UnknownWord("A\0B") |
| RoundTrip.PlaceFixtureCompiles | toyrobot/tokeniser_test.go:14-21 | The tokens of `3 2 NORTH PLACE` compile to `[0,0,3, 0,0,2, 0,1,0, 1,'P','L','A','C','E',0]` |
| RoundTrip.ExecPlaceLayout | toyrobot/toyrobot.go:57-101 | That layout pushes 3, 2 and NORTH, then looks up PLACE in the dictionary |
| RoundTrip.PlaceFixtureRuns | toyrobot/tokeniser_test.go:14-21 | Running the fixture leaves 3, 2 and NORTH on the stack. It succeeds with PLACE defined and fails with UnknownWord("PLACE") without it |

## Left out

- The tokeniser (`RobotTokeniser.Tokenise`) is not part of this model. `Robot.RunProgram` takes the tokeniser's result as a parameter: a token list, or an error.
- Dictionary actions are fixed outcomes, success or a given error. They do not touch the value stack, the cursor or the robot's position. The real actions (`LoadEnv`, movement, arithmetic, the `IF`/`JMP` cursor moves) are not part of this model.
- The robot's `X`, `Y`, `F`, `Placed` and `Output` fields are not modelled: they are state of the unseen actions, and `Output` is I/O.
- `NewRobot` fills the dictionary through `LoadEnv`. The model's constructor takes the dictionary as a parameter instead.
- Error messages built by `fmt.Errorf` are modelled as error kinds carrying the offending value or name, not as formatted text.
- The `belt` and `stack` packages are specified only by what their callers rely on. `HasNext`/`GetNext` is a cursor over a sequence, and `Push` appends to a sequence.
- Compiler.RobotCompiler.Compile: a NUMBER or DIRECTION whose value has the wrong Go type panics in the source. The model returns `TypeAssertionPanic` as an ordinary error, so it does not capture the unwinding of a panic.
- Compiler.EncodeToken: Go's `int` is 64 bits wide, while the model's integer token values are unbounded. `byte(n)` keeps the low eight bits either way, so the encoding does not depend on the width.
- RoundTrip.CompiledRunMatchesTokens: holds only for word names without a `0` byte, and `RoundTrip.TerminatorInWordName` shows that it fails otherwise.
- The `GetNext` errors at toyrobot/compiler.go:34-37 and toyrobot/toyrobot.go:53-56 cannot occur right after `HasNext()` held. The model proves these branches dead.
- Code generated by `go:generate stringer` is not part of this model.

=== FILE: belt.dfy ===
/**
 * The forward-only cursor (`belt.Belt[T]`) used by the compiler over tokens
 * and by the interpreter over bytes. Only the behaviour its callers rely on
 * is modelled: `HasNext` says whether an element remains, `GetNext` returns
 * it and advances, or fails with `Exhausted` and stays put.
 */
module Belt {
  import opened Types

  class Cursor<T> {
    const items: seq<T>
    var pos: nat

    ghost predicate Valid()
      reads this
    {
      pos <= |items|
    }

    constructor (input: seq<T>)
      ensures Valid() && items == input && pos == 0
    {
      items := input;
      pos := 0;
    }

    predicate HasNext()
      reads this
    {
      pos < |items|
    }

    method GetNext() returns (r: Result<T>)
      requires Valid()
      modifies this
      ensures Valid()
      ensures old(pos) < |items| ==> r == Ok(items[old(pos)]) && pos == old(pos) + 1
      ensures old(pos) >= |items| ==> r == Err(Exhausted) && pos == old(pos)
    {
      if pos < |items| {
        r := Ok(items[pos]);
        pos := pos + 1;
      } else {
        r := Err(Exhausted);
      }
    }
  }
}

=== FILE: compiler.dfy ===
/**
 * The bytecode compiler (compiler.go): every token becomes a short,
 * self-delimiting instruction, and the program is their concatenation.
 *
 *   NUMBER n     ->  [PUSH_VAL, T_INT, n mod 256]
 *   DIRECTION d  ->  [PUSH_VAL, T_DIRECTION, d]
 *   WORD s       ->  [EXEC_WORD] + bytes(s) + [0]
 *
 * Any other token kind, or a WORD whose value is not a string, fails the
 * whole compilation.
 */
module Compiler {
  import opened Types
  import opened Belt

  /** Go's `byte(n)` for an `int`: keeps the low eight bits. */
  function TruncateToByte(n: int): (b: Byte)
    ensures (b - n) % 256 == 0
  {
    n % 256
  }

  /** The instruction one token compiles to, or the error that stops compilation. */
  function EncodeToken(t: Token): (r: Result<Bytes>)
  {
    match t.kind
    case NumberToken =>
      if t.value.IntVal? then Ok([OpPushVal, TInt, TruncateToByte(t.value.i)])
      else Err(TypeAssertionPanic(t))
    case DirectionToken =>
      if t.value.DirectionVal? then Ok([OpPushVal, TDirection, t.value.d])
      else Err(TypeAssertionPanic(t))
    case WordToken =>
      if t.value.StringVal? then Ok([OpExecWord] + t.value.s + [Terminator])
      else Err(InvalidTokenValue(t.value))
    case _ =>
      Err(InvalidTokenInstruction(t))
  }

  /** A token the compiler accepts. */
  predicate Compilable(t: Token)
  {
    EncodeToken(t).Ok?
  }

  predicate AllCompilable(ts: seq<Token>)
  {
    forall i :: 0 <= i < |ts| ==> Compilable(ts[i])
  }

  /**
   * What `Compile` returns for a token list, defined the way the loop
   * consumes it: the encoding of all tokens but the last, then the last.
   */
  function CompileTokens(ts: seq<Token>): (r: Result<Bytes>)
    decreases |ts|
  {
    if ts == [] then Ok([])
    else
      match CompileTokens(ts[..|ts| - 1])
      case Err(e) => Err(e)
      case Ok(prefix) =>
        match EncodeToken(ts[|ts| - 1])
        case Err(e) => Err(e)
        case Ok(code) => Ok(prefix + code)
  }

  /** Compilation succeeds exactly when every token is accepted. */
  lemma {:induction false} CompileSucceedsIff(ts: seq<Token>)
    ensures CompileTokens(ts).Ok? <==> AllCompilable(ts)
    decreases |ts|
  {
    if ts != [] {
      var init := ts[..|ts| - 1];
      CompileSucceedsIff(init);
      if AllCompilable(ts) {
        assert AllCompilable(init) by {
          forall i | 0 <= i < |init| ensures Compilable(init[i]) {
            assert init[i] == ts[i];
          }
        }
      }
      if CompileTokens(ts).Ok? {
        forall i | 0 <= i < |ts| ensures Compilable(ts[i]) {
          if i < |init| {
            assert init[i] == ts[i];
          }
        }
      }
    }
  }

  /** Compiling one more token of `ts` joins its encoding onto the prefix's. */
  lemma CompileStep(ts: seq<Token>, k: nat)
    requires k < |ts|
    ensures CompileTokens(ts[..k + 1]) == Join(CompileTokens(ts[..k]), EncodeToken(ts[k]))
  {
    assert ts[..k + 1][..k] == ts[..k];
  }

  /** Once a prefix fails, the whole list fails with the same error. */
  lemma {:induction false} CompilePrefixFailure(ts: seq<Token>, k: nat)
    requires k <= |ts|
    requires CompileTokens(ts[..k]).Err?
    ensures CompileTokens(ts) == CompileTokens(ts[..k])
    decreases |ts| - k
  {
    if k < |ts| {
      assert ts[..k + 1][..k] == ts[..k];
      CompilePrefixFailure(ts, k + 1);
    } else {
      assert ts[..k] == ts;
    }
  }

  /** How two compilation results combine when their token lists are concatenated. */
  function Join(a: Result<Bytes>, b: Result<Bytes>): (r: Result<Bytes>)
  {
    match a
    case Err(e) => Err(e)
    case Ok(x) =>
      match b
      case Err(e) => Err(e)
      case Ok(y) => Ok(x + y)
  }

  /** A single token compiles to its own encoding. */
  lemma CompileSingle(t: Token)
    ensures CompileTokens([t]) == EncodeToken(t)
  {
    assert [t][..0] == [];
    if EncodeToken(t).Ok? {
      assert [] + EncodeToken(t).value == EncodeToken(t).value;
    }
  }

  /**
   * Compilation is a homomorphism: compiling `a + b` is compiling `a`, then
   * `b`, and concatenating; the first error (from `a` before `b`) wins.
   */
  lemma {:induction false} CompileAppend(a: seq<Token>, b: seq<Token>)
    ensures CompileTokens(a + b) == Join(CompileTokens(a), CompileTokens(b))
    decreases |b|
  {
    if b == [] {
      assert a + b == a;
      if CompileTokens(a).Ok? {
        assert CompileTokens(a).value + [] == CompileTokens(a).value;
      }
    } else {
      var init, last := b[..|b| - 1], b[|b| - 1];
      assert (a + b)[..|a + b| - 1] == a + init;
      assert (a + b)[|a + b| - 1] == last;
      CompileAppend(a, init);
      match CompileTokens(a)
      case Err(_) =>
      case Ok(x) =>
        match CompileTokens(init)
        case Err(_) =>
        case Ok(y) =>
          match EncodeToken(last)
          case Err(_) =>
          case Ok(z) =>
            assert x + y + z == x + (y + z);
    }
  }

  /** Compiling from the front: the first token's encoding, then the rest's. */
  lemma CompileCons(t: Token, rest: seq<Token>)
    ensures CompileTokens([t] + rest) == Join(EncodeToken(t), CompileTokens(rest))
  {
    CompileAppend([t], rest);
    CompileSingle(t);
  }

  /** Encoded size of one accepted token: 3 for a literal, name length + 2 for a word. */
  function TokenSize(t: Token): (n: nat)
  {
    if t.kind == WordToken && t.value.StringVal? then |t.value.s| + 2 else 3
  }

  function EncodedSize(ts: seq<Token>): (n: nat)
  {
    if ts == [] then 0 else TokenSize(ts[0]) + EncodedSize(ts[1..])
  }

  /** A successful compilation is 3 bytes per literal plus |name| + 2 bytes per word. */
  lemma {:induction false} CompileLength(ts: seq<Token>)
    requires CompileTokens(ts).Ok?
    ensures |CompileTokens(ts).value| == EncodedSize(ts)
    decreases |ts|
  {
    if ts != [] {
      assert ts == [ts[0]] + ts[1..];
      CompileCons(ts[0], ts[1..]);
      CompileLength(ts[1..]);
    }
  }

  /** The encodings of accepted tokens, concatenated front to back. */
  function Encoding(ts: seq<Token>): (r: Bytes)
    requires AllCompilable(ts)
  {
    if ts == [] then [] else EncodeToken(ts[0]).value + Encoding(ts[1..])
  }

  /** A list of accepted tokens compiles to the concatenation of their encodings. */
  lemma {:induction false} CompileIsEncoding(ts: seq<Token>)
    requires AllCompilable(ts)
    ensures CompileTokens(ts) == Ok(Encoding(ts))
    decreases |ts|
  {
    if ts != [] {
      assert [ts[0]] + ts[1..] == ts;
      CompileCons(ts[0], ts[1..]);
      CompileIsEncoding(ts[1..]);
    }
  }

  /**
   * A failed compilation reports the error of the first rejected token, and
   * every token before it was accepted.
   */
  lemma {:induction false} CompileFailsAtFirstBadToken(ts: seq<Token>)
    requires CompileTokens(ts).Err?
    ensures exists i :: 0 <= i < |ts| && AllCompilable(ts[..i]) && EncodeToken(ts[i]) == Err(CompileTokens(ts).error)
    decreases |ts|
  {
    var init := ts[..|ts| - 1];
    if CompileTokens(init).Err? {
      CompileFailsAtFirstBadToken(init);
      var i :| 0 <= i < |init| && AllCompilable(init[..i]) && EncodeToken(init[i]) == Err(CompileTokens(init).error);
      assert init[..i] == ts[..i];
      assert ts[i] == init[i];
    } else {
      CompileSucceedsIff(init);
      assert ts[..|ts| - 1] == init;
    }
  }

  /**
   * The byte layout of each accepted token kind. A NUMBER keeps only its low
   * eight bits, so n and n + 256 compile to the same bytes.
   */
  lemma TokenLayout(t: Token)
    ensures t.kind == NumberToken && t.value.IntVal? ==>
      CompileTokens([t]) == Ok([0, 0, t.value.i % 256]) &&
      CompileTokens([t]) == CompileTokens([t.(value := IntVal(t.value.i + 256))])
    ensures t.kind == DirectionToken && t.value.DirectionVal? ==>
      CompileTokens([t]) == Ok([0, 1, t.value.d])
    ensures t.kind == WordToken && t.value.StringVal? ==>
      CompileTokens([t]) == Ok([1] + t.value.s + [0])
    ensures t.kind == WordToken && !t.value.StringVal? ==>
      CompileTokens([t]) == Err(InvalidTokenValue(t.value))
    ensures t.kind in {BoolToken, StringToken} ==>
      CompileTokens([t]) == Err(InvalidTokenInstruction(t))
  {
    CompileSingle(t);
    if t.value.IntVal? {
      CompileSingle(t.(value := IntVal(t.value.i + 256)));
    }
  }

  /** No token list compiles to a partial stream: one bad token anywhere fails the whole list. */
  lemma {:induction false} CompileAllOrNothing(a: seq<Token>, t: Token, b: seq<Token>)
    requires !Compilable(t)
    ensures CompileTokens(a + [t] + b).Err?
  {
    var ts := a + [t] + b;
    assert ts[|a|] == t;
    CompileSucceedsIff(ts);
  }

  /** The empty program compiles to the empty stream. */
  lemma CompileEmpty()
    ensures CompileTokens([]) == Ok([])
  {
  }

  class RobotCompiler {
    var tokens: Cursor?<Token>

    constructor ()
      ensures tokens == null
    {
      tokens := null;
    }

    /** Encodes `input` token by token; the first rejected token aborts with no output. */
    method Compile(input: seq<Token>) returns (r: Result<Bytes>)
      modifies this
      ensures r == CompileTokens(input)
      ensures tokens != null && fresh(tokens) && tokens.items == input && tokens.Valid()
      ensures r.Ok? ==> tokens.pos == |input|
      ensures r.Err? ==>
        && 0 < tokens.pos <= |input|
        && CompileTokens(input[..tokens.pos - 1]).Ok?
        && EncodeToken(input[tokens.pos - 1]) == Err(r.error)
    {
      tokens := new Cursor(input);

      var instructions: Bytes := [];
      while tokens.HasNext()
        invariant fresh(tokens) && tokens.Valid() && tokens.items == input
        invariant CompileTokens(input[..tokens.pos]) == Ok(instructions)
        decreases |input| - tokens.pos
      {
        ghost var done, before := tokens.pos, instructions;
        CompileStep(input, done);
        var next := tokens.GetNext();
        if next.Err? {
          // HasNext() held, so the cursor cannot be exhausted here
          assert false;
        }
        var token := next.value;
        match token.kind {
          case NumberToken =>
            if !token.value.IntVal? {
              r := Err(TypeAssertionPanic(token));
              CompilePrefixFailure(input, done + 1);
              return;
            }
            instructions := instructions + [OpPushVal, TInt, TruncateToByte(token.value.i)];
          case DirectionToken =>
            if !token.value.DirectionVal? {
              r := Err(TypeAssertionPanic(token));
              CompilePrefixFailure(input, done + 1);
              return;
            }
            instructions := instructions + [OpPushVal, TDirection, token.value.d];
          case WordToken =>
            if !token.value.StringVal? {
              r := Err(InvalidTokenValue(token.value));
              CompilePrefixFailure(input, done + 1);
              return;
            }
            var bytes := token.value.s + [Terminator];
            instructions := instructions + [OpExecWord];
            instructions := instructions + bytes;
          case _ =>
            r := Err(InvalidTokenInstruction(token));
            CompilePrefixFailure(input, done + 1);
            return;
        }
        assert instructions == before + EncodeToken(token).value;
      }
      assert input[..tokens.pos] == input;
      r := Ok(instructions);
    }
  }
}

=== FILE: roundtrip.dfy ===
/**
 * The compiler and the interpreter agree: running the bytes `Compile`
 * produces does exactly what the token list says, token by token. The
 * reference meaning of a token list is `Interpret`, defined on tokens
 * without any bytecode in between.
 */
module RoundTrip {
  import opened Types
  import opened Compiler
  import opened ToyRobot

  /** A WORD whose name does not contain the terminator byte. */
  predicate TerminatorFree(t: Token)
  {
    t.kind == WordToken && t.value.StringVal? ==> Terminator !in t.value.s
  }

  predicate AllTerminatorFree(ts: seq<Token>)
  {
    forall i :: 0 <= i < |ts| ==> TerminatorFree(ts[i])
  }

  /** What one token does to the run: carry on with a new stack, or stop with an error. */
  datatype Effect = Proceed(stack: seq<RobotValue>) | Stop(err: Error, stack: seq<RobotValue>)

  /**
   * The meaning of one accepted token: a NUMBER pushes its low byte as an
   * integer, a DIRECTION pushes itself, and a WORD runs its dictionary
   * action, stopping at an unknown name or a failing action.
   */
  function TokenEffect(t: Token, dict: Dictionary, stack: seq<RobotValue>): (e: Effect)
    requires Compilable(t)
  {
    if t.kind == NumberToken then Proceed(stack + [RobotValue(TInt, IntVal(TruncateToByte(t.value.i)))])
    else if t.kind == DirectionToken then Proceed(stack + [RobotValue(TDirection, DirectionVal(t.value.d))])
    else if t.value.s !in dict then Stop(UnknownWord(t.value.s), stack)
    else if dict[t.value.s].FailsWith? then Stop(dict[t.value.s].err, stack)
    else Proceed(stack)
  }

  /** The meaning of an accepted token list: the tokens' effects in order, up to the first stop. */
  function Interpret(ts: seq<Token>, dict: Dictionary, stack: seq<RobotValue>): (r: (Option<Error>, seq<RobotValue>))
    requires AllCompilable(ts)
    decreases |ts|
  {
    if ts == [] then (None, stack)
    else
      match TokenEffect(ts[0], dict, stack)
      case Stop(e, s) => (Some(e), s)
      case Proceed(s) => Interpret(ts[1..], dict, s)
  }

  /**
   * Decoding one accepted token's encoding at `pos` has that token's effect;
   * on carrying on, decoding resumes just after the encoding.
   */
  lemma ExecToken(code: Bytes, pos: nat, t: Token, dict: Dictionary, stack: seq<RobotValue>)
    requires Compilable(t) && TerminatorFree(t)
    requires pos + |EncodeToken(t).value| <= |code|
    requires code[pos..pos + |EncodeToken(t).value|] == EncodeToken(t).value
    ensures var next := pos + |EncodeToken(t).value|;
      Exec(code, pos, stack, dict) ==
        match TokenEffect(t, dict, stack)
        case Stop(e, s) => Outcome(Some(e), s, next)
        case Proceed(s) => Exec(code, next, s, dict)
  {
    var e := EncodeToken(t).value;
    var next := pos + |e|;
    assert code[pos] == e[0] && code[pos + 1] == e[1];
    if t.kind == NumberToken {
      assert code[pos + 2] == e[2];
      ExecPushInt(code, pos, stack, dict);
    } else if t.kind == DirectionToken {
      assert code[pos + 2] == e[2];
      ExecPushDirection(code, pos, stack, dict);
    } else {
      assert code[pos + 1..next - 1] == t.value.s by {
        SliceOfSlice(code, pos, next, 1, |e| - 1);
        assert e[1..|e| - 1] == t.value.s;
      }
      assert code[next - 1] == e[|e| - 1];
      ExecWord(code, pos, next, stack, dict);
    }
  }

  lemma SliceOfSlice(a: Bytes, i: nat, j: nat, k: nat, l: nat)
    requires i <= j <= |a| && k <= l <= j - i
    ensures a[i..j][k..l] == a[i + k..i + l]
  {
    forall n | 0 <= n < l - k ensures a[i..j][k..l][n] == a[i + k..i + l][n] {
    }
  }

  lemma TerminatorFreeTail(ts: seq<Token>)
    requires ts != [] && AllTerminatorFree(ts)
    ensures TerminatorFree(ts[0]) && AllTerminatorFree(ts[1..])
  {
    forall i | 0 <= i < |ts| - 1 ensures TerminatorFree(ts[1..][i]) {
      assert ts[1..][i] == ts[i + 1];
    }
  }

  /** A stream whose suffix at `pos` is `e + r` holds `e` at `pos` and `r` after it. */
  lemma SplitAt(code: Bytes, pos: nat, e: Bytes, r: Bytes)
    requires pos <= |code| && code[pos..] == e + r
    ensures pos + |e| <= |code|
    ensures code[pos..pos + |e|] == e && code[pos + |e|..] == r
  {
    assert code[pos..pos + |e|] == code[pos..][..|e|];
    assert code[pos + |e|..] == code[pos..][|e|..];
  }

  /**
   * Decoding the compiled form of `ts`, wherever it sits in the stream and
   * with whatever stack, behaves as `Interpret(ts)`.
   */
  lemma {:induction false} ExecCompiled(code: Bytes, pos: nat, ts: seq<Token>, dict: Dictionary, stack: seq<RobotValue>)
    requires AllCompilable(ts) && AllTerminatorFree(ts)
    requires pos <= |code| && code[pos..] == Encoding(ts)
    ensures var o := Exec(code, pos, stack, dict); (o.err, o.stack) == Interpret(ts, dict, stack)
    decreases |ts|
  {
    if ts != [] {
      TerminatorFreeTail(ts);
      SplitAt(code, pos, EncodeToken(ts[0]).value, Encoding(ts[1..]));
      ExecToken(code, pos, ts[0], dict, stack);
      var effect := TokenEffect(ts[0], dict, stack);
      if effect.Proceed? {
        ExecCompiled(code, pos + |EncodeToken(ts[0]).value|, ts[1..], dict, effect.stack);
      }
    }
  }

  /**
   * Compile-then-run is token interpretation: for every token list whose
   * tokens the compiler all accepts and whose word names hold no terminator
   * byte, `RunProgram` ends with the error and the stack `Interpret` gives.
   */
  lemma CompiledRunMatchesTokens(ts: seq<Token>, dict: Dictionary, stack: seq<RobotValue>)
    requires AllCompilable(ts) && AllTerminatorFree(ts)
    ensures RunProgramSpec(Ok(ts), dict, stack) == Interpret(ts, dict, stack)
  {
    CompileIsEncoding(ts);
    ExecCompiled(Encoding(ts), 0, ts, dict, stack);
  }

  /** A literal whose value survives the one-byte payload unchanged. */
  predicate ByteLiteral(t: Token)
  {
    || (t.kind == NumberToken && t.value.IntVal? && 0 <= t.value.i < 256)
    || (t.kind == DirectionToken && t.value.DirectionVal?)
  }

  predicate AllByteLiterals(ts: seq<Token>)
  {
    forall i :: 0 <= i < |ts| ==> ByteLiteral(ts[i])
  }

  /** The runtime value a byte literal stands for. */
  function LiteralValue(t: Token): (v: RobotValue)
    requires ByteLiteral(t)
  {
    if t.kind == NumberToken then RobotValue(TInt, IntVal(t.value.i))
    else RobotValue(TDirection, DirectionVal(t.value.d))
  }

  function LiteralValues(ts: seq<Token>): (vs: seq<RobotValue>)
    requires AllByteLiterals(ts)
  {
    seq(|ts|, i requires 0 <= i < |ts| => LiteralValue(ts[i]))
  }

  lemma {:induction false} InterpretLiterals(ts: seq<Token>, dict: Dictionary, stack: seq<RobotValue>)
    requires AllByteLiterals(ts)
    ensures AllCompilable(ts) && CompileTokens(ts).Ok?
    ensures Interpret(ts, dict, stack) == (None, stack + LiteralValues(ts))
    decreases |ts|
  {
    assert AllCompilable(ts) by {
      forall i | 0 <= i < |ts| ensures Compilable(ts[i]) {
        assert ByteLiteral(ts[i]);
      }
    }
    CompileSucceedsIff(ts);
    if ts != [] {
      var rest := ts[1..];
      assert AllByteLiterals(rest) by {
        forall i | 0 <= i < |rest| ensures ByteLiteral(rest[i]) {
          assert rest[i] == ts[i + 1];
        }
      }
      var v := LiteralValue(ts[0]);
      InterpretLiterals(rest, dict, stack + [v]);
      assert ts[0].kind == NumberToken ==> TruncateToByte(ts[0].value.i) == ts[0].value.i;
      assert Interpret(ts, dict, stack) == Interpret(rest, dict, stack + [v]);
      assert LiteralValues(ts) == [v] + LiteralValues(rest);
      assert stack + [v] + LiteralValues(rest) == stack + LiteralValues(ts);
    } else {
      assert stack + LiteralValues(ts) == stack;
    }
  }

  /**
   * The literal round trip: a program of NUMBERs in 0..255 and DIRECTIONs,
   * run from an empty stack, succeeds and leaves exactly those values on the
   * stack in source order, whatever the dictionary.
   */
  lemma LiteralRoundTrip(ts: seq<Token>, dict: Dictionary)
    requires AllByteLiterals(ts)
    ensures CompileTokens(ts).Ok?
    ensures RunProgramSpec(Ok(ts), dict, []) == (None, LiteralValues(ts))
  {
    InterpretLiterals(ts, dict, []);
    assert AllTerminatorFree(ts) by {
      forall i | 0 <= i < |ts| ensures TerminatorFree(ts[i]) {
        assert ByteLiteral(ts[i]);
      }
    }
    CompiledRunMatchesTokens(ts, dict, []);
    assert [] + LiteralValues(ts) == LiteralValues(ts);
  }

  /** A WORD named "A\0B": its name holds the terminator byte. */
  const NamedWithTerminator := Token(WordToken, StringVal([65, 0, 66]), [65, 0, 66])

  /**
   * Without the terminator-free condition the round trip breaks: the WORD
   * "A\0B" compiles to [1, 'A', 0, 'B', 0], ...
   */
  lemma TerminatorInWordNameCompiles()
    ensures CompileTokens([NamedWithTerminator]) == Ok([1, 65, 0, 66, 0])
  {
    CompileSingle(NamedWithTerminator);
    assert [1] + [65, 0, 66] + [0] == [1, 65, 0, 66, 0];
  }

  /**
   * ... which decodes as the word "A" followed by the invalid opcode 'B'
   * (here with "A" defined) ...
   */
  lemma ExecTerminatorLayout(code: Bytes, dict: Dictionary)
    requires |code| == 5 && code[0] == 1 && code[1] == 65 && code[2] == 0 && code[3] == 66
    requires dict == map[[65] := Succeeds]
    ensures Exec(code, 0, [], dict) == Outcome(Some(InvalidInstruction(66)), [], 4)
  {
    assert code[1..2] == [65];
    ExecWord(code, 0, 3, [], dict);
    ExecInvalidOpcode(code, 3, [], dict);
  }

  /**
   * ... whereas the token list itself looks up the whole name "A\0B", so
   * compile-then-run and `Interpret` disagree on it.
   */
  lemma TerminatorInWordName()
    ensures RunProgramSpec(Ok([NamedWithTerminator]), map[[65] := Succeeds], []) == (Some(InvalidInstruction(66)), [])
    ensures Interpret([NamedWithTerminator], map[[65] := Succeeds], []) == (Some(UnknownWord([65, 0, 66])), [])
  {
    TerminatorInWordNameCompiles();
    ExecTerminatorLayout([1, 65, 0, 66, 0], map[[65] := Succeeds]);
    assert [65, 0, 66] !in map[[65] := Succeeds];
  }

  /** "PLACE" as bytes. */
  const Place: Bytes := [80, 76, 65, 67, 69]

  /** The tokens of "3 2 NORTH PLACE". */
  const PlaceTokens := [
    Token(NumberToken, IntVal(3), [51]),
    Token(NumberToken, IntVal(2), [50]),
    Token(DirectionToken, DirectionVal(North), [78, 79, 82, 84, 72]),
    Token(WordToken, StringVal(Place), Place)]

  /** Any four tokens compile to their four encodings, in order. */
  lemma CompileFour(a: Token, b: Token, c: Token, d: Token)
    ensures CompileTokens([a, b, c, d])
         == Join(EncodeToken(a), Join(EncodeToken(b), Join(EncodeToken(c), EncodeToken(d))))
  {
    CompileSingle(d);
    CompileCons(c, [d]);
    CompileCons(b, [c, d]);
    CompileCons(a, [b, c, d]);
    assert [a, b, c, d] == [a] + [b, c, d];
    assert [b, c, d] == [b] + [c, d];
    assert [c, d] == [c] + [d];
  }

  /** The fixture "3 2 NORTH PLACE" compiles to [0,0,3, 0,0,2, 0,1,0, 1,'P','L','A','C','E',0]. */
  lemma PlaceFixtureCompiles()
    ensures CompileTokens(PlaceTokens) == Ok([0, 0, 3, 0, 0, 2, 0, 1, 0, 1, 80, 76, 65, 67, 69, 0])
  {
    var ts := PlaceTokens;
    CompileFour(ts[0], ts[1], ts[2], ts[3]);
    assert ts == [ts[0], ts[1], ts[2], ts[3]];
    assert EncodeToken(ts[0]) == Ok([0, 0, 3]);
    assert EncodeToken(ts[1]) == Ok([0, 0, 2]);
    assert EncodeToken(ts[2]) == Ok([0, 1, 0]);
    assert [1] + Place + [0] == [1, 80, 76, 65, 67, 69, 0];
    assert EncodeToken(ts[3]) == Ok([1, 80, 76, 65, 67, 69, 0]);
    assert [0, 0, 3] + ([0, 0, 2] + ([0, 1, 0] + [1, 80, 76, 65, 67, 69, 0]))
        == [0, 0, 3, 0, 0, 2, 0, 1, 0, 1, 80, 76, 65, 67, 69, 0];
  }

  /**
   * Decoding the fixture's byte layout: three pushes, then PLACE, looked up in
   * the dictionary; the stream ends right after its terminator.
   */
  lemma ExecPlaceLayout(code: Bytes, dict: Dictionary)
    requires |code| == 16
    requires code[0] == 0 && code[1] == 0 && code[2] == 3
    requires code[3] == 0 && code[4] == 0 && code[5] == 2
    requires code[6] == 0 && code[7] == 1 && code[8] == North
    requires code[9] == 1 && code[10..15] == Place && code[15] == 0
    ensures var pushed := [RobotValue(TInt, IntVal(3)), RobotValue(TInt, IntVal(2)), RobotValue(TDirection, DirectionVal(North))];
      Exec(code, 0, [], dict)
        == if Place !in dict then Outcome(Some(UnknownWord(Place)), pushed, 16)
           else if dict[Place].FailsWith? then Outcome(Some(dict[Place].err), pushed, 16)
           else Outcome(None, pushed, 16)
  {
    var s1 := [RobotValue(TInt, IntVal(3))];
    var s2 := s1 + [RobotValue(TInt, IntVal(2))];
    var s3 := s2 + [RobotValue(TDirection, DirectionVal(North))];
    ExecPushInt(code, 0, [], dict);
    assert [] + [RobotValue(TInt, IntVal(code[2]))] == s1;
    assert Exec(code, 0, [], dict) == Exec(code, 3, s1, dict);
    ExecPushInt(code, 3, s1, dict);
    assert Exec(code, 3, s1, dict) == Exec(code, 6, s2, dict);
    ExecPushDirection(code, 6, s2, dict);
    assert Exec(code, 6, s2, dict) == Exec(code, 9, s3, dict);
    assert Terminator !in code[10..15];
    ExecWord(code, 9, 16, s3, dict);
    ExecAtEnd(code, s3, dict);
    assert s3 == [RobotValue(TInt, IntVal(3)), RobotValue(TInt, IntVal(2)), RobotValue(TDirection, DirectionVal(North))];
  }

  /**
   * Running the fixture pushes 3, 2 and NORTH, then looks up PLACE: with
   * PLACE defined the run succeeds, without it the run stops with UnknownWord.
   */
  lemma PlaceFixtureRuns()
    ensures var pushed := [RobotValue(TInt, IntVal(3)), RobotValue(TInt, IntVal(2)), RobotValue(TDirection, DirectionVal(North))];
      && RunProgramSpec(Ok(PlaceTokens), map[Place := Succeeds], []) == (None, pushed)
      && RunProgramSpec(Ok(PlaceTokens), map[], []) == (Some(UnknownWord(Place)), pushed)
  {
    var code: Bytes := [0, 0, 3, 0, 0, 2, 0, 1, 0, 1, 80, 76, 65, 67, 69, 0];
    PlaceFixtureCompiles();
    assert code[10..15] == Place;
    ExecPlaceLayout(code, map[Place := Succeeds]);
    ExecPlaceLayout(code, map[]);
  }
}

=== FILE: toyrobot.dfy ===
/**
 * The robot's bytecode interpreter (toyrobot.go): a decode/dispatch loop
 * over a byte cursor that pushes tagged literals onto the value stack and
 * runs named words from the dictionary, stopping at the first error.
 *
 * Dictionary actions live outside this model; each is an outcome, success
 * or a given error, that neither moves the cursor nor touches the stack.
 */
module ToyRobot {
  import opened Types
  import opened Belt
  import opened Compiler

  datatype Action = Succeeds | FailsWith(err: Error)

  type Dictionary = map<Bytes, Action>

  /** Where a run stops: its error (None for a clean end), the stack, and the cursor position. */
  datatype Outcome = Outcome(err: Option<Error>, stack: seq<RobotValue>, pos: nat)

  /** The effect of decoding one instruction. */
  datatype StepResult =
    | Continue(stack: seq<RobotValue>, pos: nat)
    | Halt(err: Error, stack: seq<RobotValue>, pos: nat)

  /** A value that PUSH_VAL can put on the stack: an integer byte or a direction. */
  predicate Decodable(v: RobotValue)
  {
    || (v.kind == TInt && v.value.IntVal? && 0 <= v.value.i < 256)
    || (v.kind == TDirection && v.value.DirectionVal?)
  }

  /**
   * The zero-terminated name starting at `i`, and the position just past its
   * terminator; None when no terminator follows.
   */
  function ReadName(code: Bytes, i: nat): (r: Option<(Bytes, nat)>)
    requires i <= |code|
    ensures r.Some? ==> i < r.value.1 <= |code|
    decreases |code| - i
  {
    if i == |code| then None
    else if code[i] == Terminator then Some(([], i + 1))
    else
      match ReadName(code, i + 1)
      case None => None
      case Some(found) => Some(([code[i]] + found.0, found.1))
  }

  /**
   * ReadName fails exactly when no terminator follows `i`; otherwise it stops
   * at a terminator and returns the terminator-free bytes before it.
   */
  lemma {:induction false} ReadNameFinds(code: Bytes, i: nat)
    requires i <= |code|
    ensures var r := ReadName(code, i);
      && (r.None? <==> Terminator !in code[i..])
      && (r.Some? ==>
        && code[r.value.1 - 1] == Terminator
        && r.value.0 == code[i..r.value.1 - 1]
        && Terminator !in r.value.0)
    decreases |code| - i
  {
    if i < |code| && code[i] != Terminator {
      ReadNameFinds(code, i + 1);
      assert code[i..] == [code[i]] + code[i + 1..];
      var r := ReadName(code, i + 1);
      if r.Some? {
        assert code[i..r.value.1 - 1] == [code[i]] + code[i + 1..r.value.1 - 1];
      }
    }
  }

  /** The name is exactly the bytes up to the first terminator. */
  lemma ReadNameAt(code: Bytes, i: nat, j: nat)
    requires i < j <= |code|
    requires code[j - 1] == Terminator && Terminator !in code[i..j - 1]
    ensures ReadName(code, i) == Some((code[i..j - 1], j))
  {
    ReadNameFinds(code, i);
    assert code[i..][j - 1 - i] == Terminator;
  }

  /** Exec takes one Step, then stops or carries on. */
  lemma ExecByStep(code: Bytes, pos: nat, stack: seq<RobotValue>, dict: Dictionary)
    requires pos < |code|
    ensures Step(code, pos, stack, dict).Halt? ==>
      var s := Step(code, pos, stack, dict);
      Exec(code, pos, stack, dict) == Outcome(Some(s.err), s.stack, s.pos)
    ensures Step(code, pos, stack, dict).Continue? ==>
      var s := Step(code, pos, stack, dict);
      Exec(code, pos, stack, dict) == Exec(code, s.pos, s.stack, dict)
  {
  }

  /** Decodes and executes the one instruction at `pos` (the body of the loop at toyrobot.go). */
  function Step(code: Bytes, pos: nat, stack: seq<RobotValue>, dict: Dictionary): (s: StepResult)
    requires pos < |code|
    ensures pos < s.pos <= |code|
  {
    var op := code[pos];
    if op == OpPushVal then
      if pos + 1 == |code| then Halt(Exhausted, stack, |code|)
      else
        var tag := code[pos + 1];
        if tag == TInt then
          if pos + 2 == |code| then Halt(Exhausted, stack, |code|)
          else Continue(stack + [RobotValue(TInt, IntVal(code[pos + 2]))], pos + 3)
        else if tag == TDirection then
          if pos + 2 == |code| then Halt(Exhausted, stack, |code|)
          else Continue(stack + [RobotValue(TDirection, DirectionVal(code[pos + 2]))], pos + 3)
        else
          Continue(stack, pos + 2)
    else if op == OpExecWord then
      match ReadName(code, pos + 1)
      case None => Halt(Exhausted, stack, |code|)
      case Some(found) =>
        var (name, next) := found;
        if name !in dict then Halt(UnknownWord(name), stack, next)
        else
          match dict[name]
          case FailsWith(e) => Halt(e, stack, next)
          case Succeeds => Continue(stack, next)
    else
      Halt(InvalidInstruction(op), stack, pos + 1)
  }

  /** The run of `runInstructions` from cursor position `pos`. */
  function Exec(code: Bytes, pos: nat, stack: seq<RobotValue>, dict: Dictionary): (o: Outcome)
    requires pos <= |code|
    decreases |code| - pos
  {
    if pos == |code| then Outcome(None, stack, pos)
    else
      match Step(code, pos, stack, dict)
      case Halt(e, s, p) => Outcome(Some(e), s, p)
      case Continue(s, p) => Exec(code, p, s, dict)
  }

  /**
   * A run stops inside the stream, never before where it started, and it
   * ends cleanly only with the cursor at the end of the stream.
   */
  lemma {:induction false} ExecStopsInStream(code: Bytes, pos: nat, stack: seq<RobotValue>, dict: Dictionary)
    requires pos <= |code|
    ensures var o := Exec(code, pos, stack, dict);
      && pos <= o.pos <= |code|
      && (o.err.None? ==> o.pos == |code|)
    decreases |code| - pos
  {
    if pos < |code| {
      var s := Step(code, pos, stack, dict);
      if s.Continue? {
        ExecStopsInStream(code, s.pos, s.stack, dict);
      }
    }
  }

  /**
   * A run only pushes: the old stack stays as a prefix, and every value
   * added is an integer in 0..255 or a direction.
   */
  lemma {:induction false} ExecOnlyPushesBytes(code: Bytes, pos: nat, stack: seq<RobotValue>, dict: Dictionary)
    requires pos <= |code|
    ensures var o := Exec(code, pos, stack, dict);
      && stack <= o.stack
      && forall k :: |stack| <= k < |o.stack| ==> Decodable(o.stack[k])
    decreases |code| - pos
  {
    if pos < |code| {
      var s := Step(code, pos, stack, dict);
      if s.Continue? {
        ExecOnlyPushesBytes(code, s.pos, s.stack, dict);
      }
    }
  }

  /** `[PUSH_VAL, T_INT, b]` pushes the integer b and decoding resumes after it. */
  lemma ExecPushInt(code: Bytes, pos: nat, stack: seq<RobotValue>, dict: Dictionary)
    requires pos + 3 <= |code| && code[pos] == OpPushVal && code[pos + 1] == TInt
    ensures Exec(code, pos, stack, dict)
         == Exec(code, pos + 3, stack + [RobotValue(TInt, IntVal(code[pos + 2]))], dict)
  {
    ExecByStep(code, pos, stack, dict);
  }

  /** `[PUSH_VAL, T_DIRECTION, b]` pushes the direction b and decoding resumes after it. */
  lemma ExecPushDirection(code: Bytes, pos: nat, stack: seq<RobotValue>, dict: Dictionary)
    requires pos + 3 <= |code| && code[pos] == OpPushVal && code[pos + 1] == TDirection
    ensures Exec(code, pos, stack, dict)
         == Exec(code, pos + 3, stack + [RobotValue(TDirection, DirectionVal(code[pos + 2]))], dict)
  {
    ExecByStep(code, pos, stack, dict);
  }

  /**
   * A PUSH_VAL whose tag is neither T_INT nor T_DIRECTION (T_BOOL included)
   * pushes nothing and consumes only the tag: the next byte is read as an opcode.
   */
  lemma ExecSkipsOtherTag(code: Bytes, pos: nat, stack: seq<RobotValue>, dict: Dictionary)
    requires pos + 2 <= |code| && code[pos] == OpPushVal && code[pos + 1] !in {TInt, TDirection}
    ensures Exec(code, pos, stack, dict) == Exec(code, pos + 2, stack, dict)
  {
    ExecByStep(code, pos, stack, dict);
  }

  /** A stream cut off after PUSH_VAL, or after its INT/DIRECTION tag, fails with the cursor error. */
  lemma ExecTruncatedPush(code: Bytes, pos: nat, stack: seq<RobotValue>, dict: Dictionary)
    requires pos < |code| && code[pos] == OpPushVal
    requires pos + 1 == |code| || (pos + 2 == |code| && code[pos + 1] in {TInt, TDirection})
    ensures Exec(code, pos, stack, dict) == Outcome(Some(Exhausted), stack, |code|)
  {
    ExecByStep(code, pos, stack, dict);
  }

  /** An EXEC_WORD with no terminator after it fails with the cursor error. */
  lemma ExecUnterminatedWord(code: Bytes, pos: nat, stack: seq<RobotValue>, dict: Dictionary)
    requires pos < |code| && code[pos] == OpExecWord && Terminator !in code[pos + 1..]
    ensures Exec(code, pos, stack, dict) == Outcome(Some(Exhausted), stack, |code|)
  {
    ReadNameFinds(code, pos + 1);
    ExecByStep(code, pos, stack, dict);
  }

  /**
   * An EXEC_WORD whose name is the bytes up to the first terminator:
   * a name missing from the dictionary stops the run with UnknownWord, a
   * failing action stops it with the action's own error, and a succeeding
   * action lets decoding resume just past the terminator.
   */
  lemma ExecWord(code: Bytes, pos: nat, next: nat, stack: seq<RobotValue>, dict: Dictionary)
    requires pos + 2 <= next <= |code| && code[pos] == OpExecWord
    requires code[next - 1] == Terminator && Terminator !in code[pos + 1..next - 1]
    ensures var name := code[pos + 1..next - 1];
      Exec(code, pos, stack, dict) ==
        if name !in dict then Outcome(Some(UnknownWord(name)), stack, next)
        else if dict[name].FailsWith? then Outcome(Some(dict[name].err), stack, next)
        else Exec(code, next, stack, dict)
  {
    ReadNameAt(code, pos + 1, next);
    ExecByStep(code, pos, stack, dict);
  }

  /** Any opcode byte other than PUSH_VAL and EXEC_WORD stops the run. */
  lemma ExecInvalidOpcode(code: Bytes, pos: nat, stack: seq<RobotValue>, dict: Dictionary)
    requires pos < |code| && code[pos] !in {OpPushVal, OpExecWord}
    ensures Exec(code, pos, stack, dict) == Outcome(Some(InvalidInstruction(code[pos])), stack, pos + 1)
  {
    ExecByStep(code, pos, stack, dict);
  }

  /** An exhausted cursor ends the run cleanly, with the stack untouched. */
  lemma ExecAtEnd(code: Bytes, stack: seq<RobotValue>, dict: Dictionary)
    ensures Exec(code, |code|, stack, dict) == Outcome(None, stack, |code|)
  {
  }

  /** What `RunProgram` leaves behind: its error and the value stack. */
  function RunProgramSpec(tokenised: Result<seq<Token>>, dict: Dictionary, stack: seq<RobotValue>)
    : (r: (Option<Error>, seq<RobotValue>))
  {
    match tokenised
    case Err(e) => (Some(e), stack)
    case Ok(ts) =>
      match CompileTokens(ts)
      case Err(e) => (Some(e), stack)
      case Ok(code) =>
        var o := Exec(code, 0, stack, dict);
        (o.err, o.stack)
  }

  class Robot {
    var valueStack: seq<RobotValue>
    var dictionary: Dictionary
    var instructions: Cursor?<Byte>
    var compiler: RobotCompiler

    /** A robot with an empty stack and the given word dictionary. */
    constructor (dict: Dictionary)
      ensures valueStack == [] && dictionary == dict && instructions == null
      ensures fresh(compiler) && compiler.tokens == null
    {
      valueStack := [];
      dictionary := dict;
      instructions := null;
      compiler := new RobotCompiler();
    }

    /**
     * Reads the bytes up to the next terminator (the inner loop of the
     * EXEC_WORD case), leaving the cursor just past it; fails with the
     * cursor's error when the stream ends first.
     */
    method ReadWord() returns (r: Result<Bytes>)
      requires instructions != null && instructions.Valid()
      modifies instructions
      ensures instructions.Valid()
      ensures match ReadName(instructions.items, old(instructions.pos))
        case None => r == Err(Exhausted) && instructions.pos == |instructions.items|
        case Some(found) => r == Ok(found.0) && instructions.pos == found.1
    {
      ghost var code, start := instructions.items, instructions.pos;
      var wordBytes: Bytes := [];
      var t := instructions.GetNext();
      if t.Err? {
        return Err(t.error);
      }
      while t.value != Terminator
        invariant instructions.Valid() && start < instructions.pos
        invariant t == Ok(code[instructions.pos - 1])
        invariant wordBytes == code[start..instructions.pos - 1]
        invariant Terminator !in wordBytes
        decreases |code| - instructions.pos
      {
        wordBytes := wordBytes + [t.value];
        t := instructions.GetNext();
        if t.Err? {
          assert code[start..] == wordBytes;
          ReadNameFinds(code, start);
          return Err(t.error);
        }
      }
      ReadNameAt(code, start, instructions.pos);
      return Ok(wordBytes);
    }

    /**
     * Decodes and executes the instruction under the cursor (one iteration
     * of the loop in `runInstructions`); returns the error that stops the run,
     * if any.
     */
    method ExecuteInstruction() returns (halt: Option<Error>)
      requires instructions != null && instructions.Valid() && instructions.HasNext()
      modifies this`valueStack, instructions
      ensures instructions.Valid()
      ensures
        var s := Step(instructions.items, old(instructions.pos), old(valueStack), dictionary);
        && halt == (if s.Halt? then Some(s.err) else None)
        && valueStack == s.stack && instructions.pos == s.pos
    {
      ghost var code, start := instructions.items, instructions.pos;
      var current := instructions.GetNext();
      if current.Err? {
        // HasNext() held, so the cursor cannot be exhausted here
        assert false;
      }
      var op := current.value;
      if op == OpPushVal {
        var tag := instructions.GetNext();
        if tag.Err? {
          return Some(tag.error);
        }
        if tag.value == TInt {
          var vi := instructions.GetNext();
          if vi.Err? {
            return Some(vi.error);
          }
          valueStack := valueStack + [RobotValue(TInt, IntVal(vi.value))];
        } else if tag.value == TDirection {
          var vi := instructions.GetNext();
          if vi.Err? {
            return Some(vi.error);
          }
          valueStack := valueStack + [RobotValue(TDirection, DirectionVal(vi.value))];
        }
        return None;
      } else if op == OpExecWord {
        var word := ReadWord();
        if word.Err? {
          return Some(word.error);
        }
        var wordBytes := word.value;
        if wordBytes !in dictionary {
          return Some(UnknownWord(wordBytes));
        }
        match dictionary[wordBytes] {
          case FailsWith(e) =>
            return Some(e);
          case Succeeds =>
            return None;
        }
      } else {
        return Some(InvalidInstruction(op));
      }
    }

    /** Runs the instruction cursor to its end or to the first error. */
    method RunInstructions() returns (err: Option<Error>)
      requires instructions != null && instructions.Valid()
      modifies this`valueStack, instructions
      ensures instructions.Valid()
      ensures
        var o := Exec(instructions.items, old(instructions.pos), old(valueStack), dictionary);
        err == o.err && valueStack == o.stack && instructions.pos == o.pos
    {
      ghost var code := instructions.items;
      while instructions.HasNext()
        invariant instructions.Valid()
        invariant Exec(code, instructions.pos, valueStack, dictionary)
               == Exec(code, old(instructions.pos), old(valueStack), dictionary)
        decreases |code| - instructions.pos
      {
        ExecByStep(code, instructions.pos, valueStack, dictionary);
        var halt := ExecuteInstruction();
        if halt.Some? {
          return halt;
        }
      }
      return None;
    }

    /**
     * Compiles the tokeniser's output and, only if that succeeds, runs it on
     * a fresh cursor; the first error of either stage is returned.
     */
    method RunProgram(tokenised: Result<seq<Token>>) returns (err: Option<Error>)
      modifies this, compiler
      ensures (err, valueStack) == RunProgramSpec(tokenised, dictionary, old(valueStack))
      ensures dictionary == old(dictionary) && compiler == old(compiler)
      ensures tokenised.Err? || CompileTokens(tokenised.value).Err? ==> instructions == old(instructions)
      ensures tokenised.Ok? && CompileTokens(tokenised.value).Ok? ==>
        && instructions != null && fresh(instructions) && instructions.Valid()
        && instructions.items == CompileTokens(tokenised.value).value
        && instructions.pos == Exec(instructions.items, 0, old(valueStack), dictionary).pos
      ensures tokenised.Ok? ==>
        compiler.tokens != null && fresh(compiler.tokens) && compiler.tokens.items == tokenised.value
      ensures tokenised.Err? ==> compiler.tokens == old(compiler.tokens)
    {
      if tokenised.Err? {
        return Some(tokenised.error);
      }
      var compiled := compiler.Compile(tokenised.value);
      if compiled.Err? {
        return Some(compiled.error);
      }
      instructions := new Cursor(compiled.value);
      err := RunInstructions();
    }
  }
}

=== FILE: types.dfy ===
/**
 * Values shared by the compiler and the interpreter of the toy robot
 * language: bytes, the opcode and type-tag constants, directions, tokens,
 * tagged runtime values and the error kinds of every stage.
 */
module Types {

  /** Go's `byte`. */
  type Byte = b: int | 0 <= b < 256

  /** A Go `[]byte`, and also a Go `string` (an immutable byte sequence). */
  type Bytes = seq<Byte>

  // RobotType tags (iota constants of compiler.go)
  const TInt: Byte := 0
  const TDirection: Byte := 1
  const TBool: Byte := 2

  // Instruction opcodes (iota constants of compiler.go)
  const OpPushVal: Byte := 0
  const OpExecWord: Byte := 1

  /** The byte that ends a word name in the instruction stream. */
  const Terminator: Byte := 0

  /** Go's `Direction`, a byte type whose named values are the four compass points. */
  type Direction = Byte

  const North: Direction := 0
  const East: Direction := 1
  const South: Direction := 2
  const West: Direction := 3

  datatype TokenType = NumberToken | DirectionToken | BoolToken | StringToken | WordToken

  /** The dynamically typed payload of a token or of a runtime value (Go's `any`). */
  datatype Value =
    | IntVal(i: int)
    | DirectionVal(d: Direction)
    | StringVal(s: Bytes)
    | BoolVal(b: bool)

  datatype Token = Token(kind: TokenType, value: Value, lexeme: Bytes)

  /** A tagged value on the robot's value stack. */
  datatype RobotValue = RobotValue(kind: Byte, value: Value)

  /** Error kinds of every stage; message formatting is not modelled. */
  datatype Error =
    | Exhausted                            // the cursor was asked past its end
    | TypeAssertionPanic(token: Token)     // an unchecked Go type assertion fails
    | InvalidTokenValue(value: Value)      // a WORD whose value is not a string
    | InvalidTokenInstruction(token: Token) // a token kind the compiler has no case for
    | UnknownWord(name: Bytes)             // a word missing from the dictionary
    | InvalidInstruction(op: Byte)         // an opcode byte other than PUSH_VAL / EXEC_WORD

  datatype Option<T> = None | Some(value: T)

  datatype Result<T> = Ok(value: T) | Err(error: Error)
}
